=== FILE: README.md ===
# Whole-document input format and job utilities, in Dafny

This project models two Java classes of a set of Hadoop extensions:

- `DocumentInputFormat` (module `DocumentInputFormat`, file
  `document_input_format.dfy`) is an old-API Hadoop input format. It turns
  every input file into exactly one record. The record's key is the file path.
  Its value is the whole decoded file content. When the job option
  `docinput.prepend.key` is set to a non-empty string, the value starts with
  the path and that string. Files are never split. The inner
  `FullDocRecordReader` reads the decoded stream in 16 KiB chunks until end of
  stream. Its progress is 0 before the record and 1 after it.
- `Util` (module `Util`, file `util.dfy`) holds several checks:
  - the 1-1 correspondence check between input and output file lists;
  - the inclusive date-range test;
  - the pure parts of the S3 helpers: the key listing with its blank filter,
    the folder filter, and the "all objects exist" check.

The Java objects are modelled as immutable values:

- The record reader is a `Reader` value that each `next` call returns anew,
  together with the key, the value and the boolean result, or an I/O error
  (`Threw`).
- The decoded byte stream is a `Source`. It holds:
  - the bytes not yet read;
  - how many bytes were delivered so far;
  - a schedule of how many bytes each successive `read` hands back (any
    short read from 1 to 16384 bytes, chosen call by call);
  - an optional offset at which reading raises an I/O error, and whether
    that error is permanent or transient (raised once, after which reading
    goes on from the same offset);
  - whether the stream was closed.
- Both modules share `Wrappers.Option`, where `None` stands for a Java `null`.
- Java string operations that can throw (`substring` on a bad range, such as
  the -1 from `indexOf` when there is no '/') return an `Outcome`, which is
  either `Returns(v)` or `Throws`. The evaluation order is Java's,
  short-circuit included.
- An S3 listing is `Option<seq<ObjectSummary>>`. `None` stands for every way
  the source ends with `null`: no client, no bucket, or no listing.
- Dates are integer timestamps.

Each operation is paired with an independent definition or a property across
calls:

- The chunked read loop is proved equal to a recursive `Drain`. `Drain`'s
  contract says it delivers exactly the stream's remaining bytes, and that it
  fails exactly when the stream is closed or its failure offset lies at or
  before the end of those bytes (an offset already passed included).
- The correspondence check is proved equal to a definition by path parts:
  - `Head` is the text before the first '/';
  - `Name` is the text after the last '/';
  - `Middle` is what lies between them.

  The proof holds whenever every entry has a '/'. The check throws only when
  an entry lacks one.
- A read error is not the end of the reader: `next` leaves `hasRead` false,
  so a caller may call it again. After a transient error, that second call
  writes the prefix again and reads on from the failure offset. Its record
  then holds only the content after the failure offset
  (`RetryAfterTransientError`).
- The filters are proved equal to reference definitions by membership, and
  they distribute over concatenation (so they keep the listing's order).

## Model

| member | source | states |
|---|---|---|
| `DocumentInputFormat.Configure` | src/main/java/thinkbig/hadoop/inputformat/DocumentInputFormat.java:43-46 | the delimiter is set exactly when the job configuration has `docinput.prepend.key`, and then it is that value |
| `DocumentInputFormat.IsSplitable` | src/main/java/thinkbig/hadoop/inputformat/DocumentInputFormat.java:48-51 | no file is ever split |
| `DocumentInputFormat.ReadSize` | src/main/java/thinkbig/hadoop/inputformat/DocumentInputFormat.java:105-107 | a read hands back between 1 and 16384 bytes, the scheduled amount whenever that lies in this range |
| `DocumentInputFormat.Read` | src/main/java/thinkbig/hadoop/inputformat/DocumentInputFormat.java:105-107 | one read into the 16 KiB chunk: an I/O error exactly when the stream is closed or at its failure offset, after which only a transient error is cleared; otherwise -1 exactly at end of stream; otherwise 1 to 16384 bytes (at most the scheduled amount, never past the failure offset), which are the front of what was left, and the stream advances past them and changes in nothing else |
| `DocumentInputFormat.Drain` | src/main/java/thinkbig/hadoop/inputformat/DocumentInputFormat.java:106-111 | reading until -1 fails exactly when the stream is closed or fails before its end; otherwise it yields exactly the remaining bytes and leaves nothing unread; a failure stops at the failure offset, or at once on a closed stream; the close flag is unchanged, and the failure offset is unchanged unless a transient error was raised |
| `DocumentInputFormat.DrainLeavesSuffix` | src/main/java/thinkbig/hadoop/inputformat/DocumentInputFormat.java:106-111 | whatever a drain leaves unread is the tail of the bytes it started with |
| `DocumentInputFormat.Open` | src/main/java/thinkbig/hadoop/inputformat/DocumentInputFormat.java:80-94 | a new reader has not produced its record, and it reads the given file's stream with the format's delimiter |
| `DocumentInputFormat.Prefix` | src/main/java/thinkbig/hadoop/inputformat/DocumentInputFormat.java:100-104 | the buffer starts empty when the delimiter is null or empty, and otherwise holds the path followed by the delimiter |
| `DocumentInputFormat.NextRecord` | src/main/java/thinkbig/hadoop/inputformat/DocumentInputFormat.java:97-117 | after the record, returns false and changes nothing; a stream that fails before its end raises an error and leaves `hasRead` false; otherwise it returns true, sets `hasRead`, gives the path as key, and gives as value the whole content, preceded by path and delimiter exactly when the delimiter is non-null and non-empty |
| `DocumentInputFormat.ReadChunks` | src/main/java/thinkbig/hadoop/inputformat/DocumentInputFormat.java:100-111 | the loop that appends each chunk to the buffer ends with the buffer's start followed by exactly what draining the stream gives, or with the stream's error |
| `DocumentInputFormat.Next` | src/main/java/thinkbig/hadoop/inputformat/DocumentInputFormat.java:97-117 | the imperative `next` (buffer, prefix writes, chunk loop, then key, value and `hasRead`) computes exactly `NextRecord` |
| `DocumentInputFormat.Progress` | src/main/java/thinkbig/hadoop/inputformat/DocumentInputFormat.java:124-127 | progress is within [0, 1]; it is 0 exactly before the record and 1 exactly after it |
| `DocumentInputFormat.Close` | src/main/java/thinkbig/hadoop/inputformat/DocumentInputFormat.java:119-122 | closing closes the stream and keeps the path, delimiter, `hasRead` and the unread bytes |
| `DocumentInputFormat.NothingAfterRecord` | src/main/java/thinkbig/hadoop/inputformat/DocumentInputFormat.java:98-99 | once the record was produced, any number of further calls produce no record |
| `DocumentInputFormat.AtMostOneRecord` | src/main/java/thinkbig/hadoop/inputformat/DocumentInputFormat.java:28-30 | any run of `next` calls, retries after errors included, yields at most one record per file, and exactly one from a fresh reader whose stream reads to its end |
| `DocumentInputFormat.ProgressAcrossNext` | src/main/java/thinkbig/hadoop/inputformat/DocumentInputFormat.java:113-127 | progress goes from 0 to 1 on the call that produces the record, stays 0 on a call that raises an error, and stays 1 afterwards |
| `DocumentInputFormat.ValueIndependentOfChunking` | src/main/java/thinkbig/hadoop/inputformat/DocumentInputFormat.java:105-111 | for any two schedules of per-call read sizes, the same stream gives the same outcome, the same key and value, and after an error the same unread bytes |
| `DocumentInputFormat.RetryAfterTransientError` | src/main/java/thinkbig/hadoop/inputformat/DocumentInputFormat.java:98-116 | after a transient error at a failure offset within the file, `next` raises it and leaves `hasRead` false; the next call returns a record whose value is the prefix followed only by the bytes from the failure offset on, shorter than the whole record when bytes came before that offset |
| `DocumentInputFormat.ConfiguredRecord` | src/main/java/thinkbig/hadoop/inputformat/DocumentInputFormat.java:32-34 | from configuration to record: the value is path + delimiter + content when the option is set and non-empty, and the bare content otherwise; its length is the sum; an empty file still gives one record |
| `DocumentInputFormat.UnconfiguredGivesContent` | src/main/java/thinkbig/hadoop/inputformat/DocumentInputFormat.java:41 | a format never configured keeps a null delimiter, so a file whose stream reads to its end gives one record whose key is the path and whose value is the bare content |
| `DocumentInputFormat.NoRecordAfterClose` | src/main/java/thinkbig/hadoop/inputformat/DocumentInputFormat.java:119-122 | after `close`, `next` either returns false (record already produced) or raises an I/O error |
| `Util.IndexOfFrom` | src/main/java/thinkbig/util/Util.java:230-232 | `indexOf(c)` as used here: -1 exactly when `c` does not occur from `from` on, otherwise the first position at or after `from` that holds `c` |
| `Util.LastIndexOfBefore` | src/main/java/thinkbig/util/Util.java:232-233 | `lastIndexOf(c)` as used here: -1 exactly when `c` does not occur before `end`, otherwise the last position before `end` that holds `c` |
| `Util.Substring` | src/main/java/thinkbig/util/Util.java:230-233 | `substring(begin, end)` returns exactly when 0 <= begin <= end <= length, and then returns the characters from `begin` up to `end`; otherwise it throws |
| `Util.IndexOfStringFrom` | src/main/java/thinkbig/util/Util.java:130 | `indexOf(t)` is -1 or a position from which `t` still fits in the string |
| `Util.IndexOfZeroIffPrefix` | src/main/java/thinkbig/util/Util.java:130 | `key.indexOf(folder) == 0` holds exactly when `folder` is a prefix of `key` |
| `Util.PairCorresponds` | src/main/java/thinkbig/util/Util.java:230-233 | one pair in Java's evaluation order: an input entry without '/' throws, before anything else is looked at; an input entry with the wrong top-level folder answers false, without the output entry being looked at; once the input entry passes, an output entry without '/' throws and one with the wrong top-level folder answers false; true only when both entries have a '/' and both top-level folders are the expected ones |
| `Util.PairsFrom` | src/main/java/thinkbig/util/Util.java:227-237 | the loop from index `i` returns true exactly when every remaining pair returns true; otherwise the first pair that does not return true decides, and the loop answers false or throws exactly as that pair does |
| `Util.ValidateCorrespondence` | src/main/java/thinkbig/util/Util.java:223-225 | lists of different sizes never correspond |
| `Util.HeadIsPrefix` | src/main/java/thinkbig/util/Util.java:230 | the top-level folder is a prefix of the path, followed by '/' when the path has one |
| `Util.NameIsSuffix` | src/main/java/thinkbig/util/Util.java:232 | the file name is a suffix of the path, preceded by '/' when the path has one |
| `Util.FirstSlashEndsHead` | src/main/java/thinkbig/util/Util.java:230-231 | on a path with a '/', `indexOf('/')` is the length of the top-level folder, and the folder is the text before it |
| `Util.SlashPositions` | src/main/java/thinkbig/util/Util.java:230-233 | on a path with a '/', `indexOf('/')` is the top-level folder's length, and `lastIndexOf('/')` is where the file name starts, less one |
| `Util.HeadBeforeName` | src/main/java/thinkbig/util/Util.java:232-233 | on a path with a '/', the first '/' is at or before the last one, so the middle `substring` cannot throw |
| `Util.MiddleDecomposes` | src/main/java/thinkbig/util/Util.java:232-233 | a path with a '/' is its top-level folder, its directory part, a '/' and its file name |
| `Util.SubstringsOfSlashed` | src/main/java/thinkbig/util/Util.java:230-233 | on a path with a '/', the two `substring` calls return the top-level folder and the directory part |
| `Util.PairMatchesReference` | src/main/java/thinkbig/util/Util.java:230-233 | a pair whose entries both have a '/' never throws, and it passes exactly when the top-level folders are the expected ones and the directory parts are equal |
| `Util.PairsFromMatchesReference` | src/main/java/thinkbig/util/Util.java:227-237 | the loop over the pairs, on entries that all have a '/', returns true exactly when every remaining pair matches |
| `Util.ValidateMatchesReference` | src/main/java/thinkbig/util/Util.java:219-238 | when every entry has a '/', the check never throws and answers exactly whether the sizes agree and every pair matches |
| `Util.ValidateThrowsOnlyOnSlashless` | src/main/java/thinkbig/util/Util.java:227-236 | the check throws only for lists of equal size in which some entry has no '/' |
| `Util.SlashlessInputThrows` | src/main/java/thinkbig/util/Util.java:230 | an input entry without a '/' makes the check throw before the output entry is looked at |
| `Util.PathParts` | src/main/java/thinkbig/util/Util.java:205-213 | a path built from a top-level folder, a directory part and a file name has a '/', and its top-level folder, directory part and file name come back exactly |
| `Util.NameIgnored` | src/main/java/thinkbig/util/Util.java:205 | the file name never matters: two paths that differ only in it have the same top-level folder and directory part |
| `Util.SameDirectoriesCorrespond` | src/main/java/thinkbig/util/Util.java:205 | an input and an output entry with the expected top-level folders and the same directory part correspond, whatever their file names |
| `Util.DocumentedExample` | src/main/java/thinkbig/util/Util.java:206 | the first pair of the documented table, `input/2011/11/02/in/in2/in3/tfidf1` and `output/2011/11/02/in/in2/in3/tfidf1`, corresponds |
| `Util.IsDateWithinDates` | src/main/java/thinkbig/util/Util.java:247-256 | for an ordered range, true exactly when the date lies between the ends inclusive; for a reversed range, true exactly at either end |
| `Util.DateTestCases` | src/test/java/thinkbig/util/TestUtil.java:31-52 | the test's four cases: inside the range, after it, and at each end |
| `Util.ReversedRangeOnlyEnds` | src/main/java/thinkbig/util/Util.java:254-255 | a date strictly inside a range is in it, but not in the same range with its ends swapped |
| `Util.KeptKeys` | src/main/java/thinkbig/util/Util.java:95-102 | the key listing has no more keys than the listing has entries |
| `Util.KeptKeysMembers` | src/main/java/thinkbig/util/Util.java:96-101 | a key is in the key listing exactly when some entry has it and is non-empty, or blanks are not excluded |
| `Util.KeptKeysAppend` | src/main/java/thinkbig/util/Util.java:96-101 | the key listing of concatenated listings is the concatenation of their key listings, so listing order is kept |
| `Util.AllKeysKept` | src/main/java/thinkbig/util/Util.java:112-113 | without exclusion, the key listing is every key, position by position |
| `Util.ObjectKeysInBucket` | src/main/java/thinkbig/util/Util.java:78-104 | null exactly when there is no listing; otherwise the loop yields exactly the reference key listing |
| `Util.InFolder` | src/main/java/thinkbig/util/Util.java:128-133 | a key is kept exactly when it is in the list and starts with the folder name; there are no more of them than keys |
| `Util.InFolderAppend` | src/main/java/thinkbig/util/Util.java:129-133 | the folder filter distributes over concatenation, so listing order is kept |
| `Util.EmptyFolderKeepsAll` | src/main/java/thinkbig/util/Util.java:130 | with an empty folder name, every key of the listing is returned |
| `Util.FolderIsTextualPrefix` | src/main/java/thinkbig/util/Util.java:130 | folder `in` keeps the key `input/a`: the test is a string prefix, not a path component |
| `Util.ObjectsInFolder` | src/main/java/thinkbig/util/Util.java:123-135 | null exactly when there is no listing; otherwise the result holds exactly the listed keys that start with the folder name |
| `Util.AllObjectsExist` | src/main/java/thinkbig/util/Util.java:144-163 | true exactly when there is a listing and every requested key is the key of one of its entries |

## Left out

- Codec selection and decompression: the reader sees the decoded stream as a
  `Source`. Hadoop's `CompressionCodecFactory` and the file system are not
  part of this model.
- `getRecordReader` turns an `IOException` from the constructor into a
  `RuntimeException`. This is not modelled, because opening never fails in
  this model.
- `getPos` is left out. It returns `rawFsin.getPos()`, the byte position of
  the raw stream before decompression (DocumentInputFormat.java:140-142), an
  I/O detail of the file system.
- The static block that looks up `CompressionInputStream.getPos` by
  reflection (DocumentInputFormat.java:63-70) is left out: nothing reads the
  method it stores.
- `createKey` and `createValue` only allocate empty `Text` objects.
- Text encoding is left out. The model uses one byte sequence `path` both
  for the prefix and for the key. In the source, the prefix writes the path
  and the delimiter with `String.getBytes()`, in the platform charset
  (DocumentInputFormat.java:102-103). The key is set with `Text.set(String)`,
  which encodes in UTF-8 (DocumentInputFormat.java:114). The two differ unless
  the platform charset encodes the path as UTF-8 does.
- The inner reader reads the outer format's `prependKey` field when `next`
  runs. The model copies the field when the reader is opened. The two differ
  only if `configure` runs again while a reader is open.
- `DocumentInputFormat.NextRecord`, `DocumentInputFormat.AtMostOneRecord`
  and `DocumentInputFormat.ConfiguredRecord` do not model Java's array size
  cap. The source collects the record in a `ByteArrayOutputStream` and copies
  it with `toByteArray` (DocumentInputFormat.java:100,110,113). A prefix plus
  decoded content of 2^31 bytes or more therefore ends with
  `OutOfMemoryError`, and a smaller file can already exhaust the heap. The
  model's `seq` is unbounded, so it always returns the whole record.
- If a caller passed the same `Text` object as key and value, line 114 would
  overwrite the value with the path. The model keeps key and value apart, as
  Hadoop's callers do: they pass the separate objects from `createKey` and
  `createValue`.
- Logging (`System.out.println`) is left out.
- `Util.getAmazonS3Client`, `doesBucketExist` and `listObjects` are calls into
  the AWS client. They become the `Option` listing parameter. Only the first
  page of a listing is seen, as in the source, which does not follow
  truncated listings.
- `Util.checkIfUrisExist` is left out. It parses URIs with a regular
  expression and calls the AWS client for each bucket.
- `Util.getAllFiles` and `Util.enumerateDistributedFiles` are left out: they
  walk a Hadoop file system.
- `Util.addDays` and `Util.convertDate` are left out: they format and parse
  calendar dates. The source documents `addDays("2008-02-28", -29, …)` as
  "01/08/31" (Util.java:317), but its test expects "01/08/30"
  (TestUtil.java:64), which is the correct calendar answer.
- `Util.IsDateWithinDates`: dates are timestamps. `Calendar.equals` also
  compares calendar settings, but those are identical here because all three
  calendars come from `Calendar.getInstance()`.
- `null` arguments are not modelled, because strings, sequences and dates in
  the model are never null. In Java they behave as follows:
  - A null `iFiles` or `oFiles` throws `NullPointerException`.
  - A null `objectKeys` throws only once a listing exists: a null client or
    a missing bucket makes `checkIfAllObjectsExist` return false first
    (Util.java:147-155).
  - A null `iPath` or `oPath` does not throw: `equals(null)` is false
    (Util.java:230-231), so the first pair that reaches that comparison
    answers false.
  - A null `folderName` throws `NullPointerException` from `indexOf`
    (Util.java:130), once a listing with at least one key exists.
  - A null `date`, `start` or `end` throws `NullPointerException` from
    `Calendar.setTime` (Util.java:249-253).
- `Util.IndexOfStringFrom`: the contract says only that the result is -1 or
  a position where the folder name still fits. It does not say that the
  position is the first occurrence. The one use the source makes of it,
  comparing with 0, is characterised in full by `Util.IndexOfZeroIffPrefix`.
- `Util.ValidateCorrespondence` has only one direct contract clause, the size
  check. Its full meaning is carried by `ValidateMatchesReference` and
  `ValidateThrowsOnlyOnSlashless`.

=== FILE: document_input_format.dfy ===
/**
  The whole-file input format: every input file becomes exactly one record
  whose key is the file's path and whose value is the file's entire decoded
  content, optionally preceded by the path and a configured delimiter.

  The decoded byte stream (after any decompression) is the `Source` below;
  which codec produced it is not part of this model.
 */
module DocumentInputFormat {

  type byte = bv8

  import opened Wrappers

  /** Size of the buffer each read of the record reader fills (16 KiB). */
  const ChunkSize: nat := 16 * 1024

  /** Job-configuration key whose value is placed between path and content. */
  const PrependKeyOption: string := "docinput.prepend.key"

  function Min(a: nat, b: nat): nat { if a <= b then a else b }

  // ---------------------------------------------------------------------------
  // The format object
  // ---------------------------------------------------------------------------

  /** What the format remembers between `configure` and opening a reader:
      the configured delimiter, `None` when the option is not set (Java null). */
  datatype Format = Format(prependKey: Option<seq<byte>>)

  /** A format that was never configured. */
  const Unconfigured: Format := Format(None)

  /** `configure`: look up the prepend option in the job configuration.
      `conf` maps each key to its value as `JobConf.get` returns it (with
      any `${...}` variables already expanded), in its byte encoding. */
  function Configure(conf: map<string, seq<byte>>): (f: Format)
    ensures f.prependKey.Some? <==> PrependKeyOption in conf
    ensures PrependKeyOption in conf ==> f.prependKey.value == conf[PrependKeyOption]
  {
    if PrependKeyOption in conf then Format(Some(conf[PrependKeyOption])) else Format(None)
  }

  /** `isSplitable`: no file is ever divided into several splits. */
  function IsSplitable(file: seq<byte>): (splittable: bool)
    ensures !splittable
  {
    false
  }

  // ---------------------------------------------------------------------------
  // The decoded input stream
  // ---------------------------------------------------------------------------

  /** The decoded stream of one file:
      - `pending`: the bytes not yet delivered;
      - `offset`: how many bytes were delivered so far;
      - `sizes`: how many bytes each successive `read` hands back of its own
        accord (a short read), taken as at least 1 and at most the caller's
        buffer; once the schedule is used up, every read fills the buffer;
      - `failAt`: the offset at which reading raises an I/O error, if any (no
        read delivers bytes past it);
      - `failOnce`: the error is transient: it is raised once, after which
        reading goes on from the same offset;
      - `closed`: whether the stream was closed. */
  datatype Source = Source(
    pending: seq<byte>,
    offset: nat,
    sizes: seq<nat>,
    failAt: Option<nat>,
    failOnce: bool,
    closed: bool)

  /** How many bytes the next read hands back of its own accord. */
  function ReadSize(sizes: seq<nat>): (n: nat)
    ensures 1 <= n <= ChunkSize
    ensures sizes != [] && 1 <= sizes[0] <= ChunkSize ==> n == sizes[0]
  {
    if sizes == [] then ChunkSize
    else if sizes[0] == 0 then 1
    else Min(sizes[0], ChunkSize)
  }

  /** What one `read(chunk)` call gives back: some bytes and the stream after
      them, end of stream (-1), or an I/O error and the stream after it. */
  datatype ReadOutcome = Bytes(data: seq<byte>, next: Source) | EndOfStream | ReadFailed(next: Source)

  /** One `read` into a buffer of `ChunkSize` bytes. */
  function Read(s: Source): (o: ReadOutcome)
    ensures o.ReadFailed? <==> s.closed || (s.failAt.Some? && s.failAt.value <= s.offset)
    ensures o.EndOfStream? <==> !o.ReadFailed? && s.pending == []
    ensures o.ReadFailed? ==> o.next == s.(failAt := o.next.failAt)
    ensures o.ReadFailed? ==> o.next.failAt == (if !s.closed && s.failOnce then None else s.failAt)
    ensures o.Bytes? ==> 0 < |o.data| <= ReadSize(s.sizes) <= ChunkSize
    ensures o.Bytes? ==> o.data + o.next.pending == s.pending
    ensures o.Bytes? && s.failAt.Some? ==> s.offset + |o.data| <= s.failAt.value
    ensures o.Bytes? ==>
      o.next == s.(pending := o.next.pending, offset := s.offset + |o.data|, sizes := o.next.sizes)
  {
    if s.closed then
      ReadFailed(s)
    else if s.failAt.Some? && s.failAt.value <= s.offset then
      ReadFailed(if s.failOnce then s.(failAt := None) else s)
    else if s.pending == [] then
      EndOfStream
    else
      var room := if s.failAt.Some? then s.failAt.value - s.offset else |s.pending|;
      var n := Min(Min(ReadSize(s.sizes), room), |s.pending|);
      var rest := if s.sizes == [] then [] else s.sizes[1..];
      Bytes(s.pending[..n], s.(pending := s.pending[n..], offset := s.offset + n, sizes := rest))
  }

  /** Draining the stream to its end meets an I/O error exactly when the
      stream is closed or its failure offset lies at or before the end of
      what is left, an offset already passed included. */
  predicate FailsBeforeEnd(s: Source)
  {
    s.closed || (s.failAt.Some? && s.failAt.value <= s.offset + |s.pending|)
  }

  /** Where a drain that meets an I/O error stops: at the failure offset,
      or where it is if that offset was already passed. */
  function FailurePoint(s: Source): nat
    requires s.failAt.Some?
  {
    if s.failAt.value <= s.offset then s.offset else s.failAt.value
  }

  /** The result of reading a stream until end of stream or error. */
  datatype Drained = Drained(data: seq<byte>, rest: Source) | DrainFailed(rest: Source)

  /** Reading chunk after chunk until `read` reports end of stream. */
  function Drain(s: Source): (d: Drained)
    ensures d.DrainFailed? <==> FailsBeforeEnd(s)
    ensures d.Drained? ==> d.data == s.pending && d.rest.pending == []
    ensures s.closed ==> d == DrainFailed(s)
    ensures d.DrainFailed? && !s.closed ==> d.rest.offset == FailurePoint(s)
    ensures d.rest.offset + |d.rest.pending| == s.offset + |s.pending|
    ensures d.rest.closed == s.closed && d.rest.failOnce == s.failOnce
    ensures d.rest.failAt == (if d.DrainFailed? && !s.closed && s.failOnce then None else s.failAt)
    decreases |s.pending|
  {
    match Read(s)
    case ReadFailed(next) => DrainFailed(next)
    case EndOfStream => Drained([], s)
    case Bytes(data, next) =>
      match Drain(next)
      case Drained(more, rest) => Drained(data + more, rest)
      case DrainFailed(rest) => DrainFailed(rest)
  }

  /** What a drain leaves unread is the tail of what was there: a drain only
      ever consumes bytes from the front. */
  lemma {:induction false} DrainLeavesSuffix(s: Source)
    ensures Drain(s).rest.pending == s.pending[|s.pending| - |Drain(s).rest.pending|..]
    decreases |s.pending|
  {
    match Read(s)
    case ReadFailed(next) =>
    case EndOfStream =>
    case Bytes(data, next) =>
      DrainLeavesSuffix(next);
      assert next.pending == s.pending[|data|..];
  }

  /** Bytes already read, put in front of what draining the rest gives. */
  function Extend(done: seq<byte>, d: Drained): Drained
  {
    match d
    case Drained(more, rest) => Drained(done + more, rest)
    case DrainFailed(rest) => d
  }

  /** One read step of a drain: a chunk read now comes in front of what
      draining the rest gives, and an error or end of stream ends the drain. */
  lemma DrainStep(s: Source)
    ensures Read(s).ReadFailed? ==> Drain(s) == DrainFailed(Read(s).next)
    ensures Read(s).EndOfStream? ==> Drain(s) == Drained([], s)
    ensures Read(s).Bytes? ==> Drain(s) == Extend(Read(s).data, Drain(Read(s).next))
  {
  }

  /** Chunks already read can be put in front one at a time or together. */
  lemma ExtendTwice(a: seq<byte>, b: seq<byte>, d: Drained)
    ensures Extend(a, Extend(b, d)) == Extend(a + b, d)
  {
    if d.Drained? {
      assert a + (b + d.data) == (a + b) + d.data;
    }
  }

  // ---------------------------------------------------------------------------
  // The record reader
  // ---------------------------------------------------------------------------

  /** The record reader of one file: its path, the delimiter of the format
      that opened it, the decoded stream and the `hasRead` flag. */
  datatype Reader = Reader(path: seq<byte>, prependKey: Option<seq<byte>>, source: Source, hasRead: bool)

  /** Opening a file: a reader that has not produced its record yet. */
  function Open(f: Format, path: seq<byte>, source: Source): (r: Reader)
    ensures !r.hasRead
    ensures r.path == path && r.source == source && r.prependKey == f.prependKey
  {
    Reader(path, f.prependKey, source, false)
  }

  /** Whether the path and delimiter go in front of the content. */
  predicate Prepends(r: Reader)
  {
    r.prependKey.Some? && r.prependKey.value != []
  }

  /** The bytes written to the buffer before any content is read. */
  function Prefix(r: Reader): (p: seq<byte>)
    ensures r.prependKey.None? || r.prependKey.value == [] ==> p == []
    ensures r.prependKey.Some? && r.prependKey.value != [] ==>
      |p| == |r.path| + |r.prependKey.value| && p[..|r.path|] == r.path && p[|r.path|..] == r.prependKey.value
  {
    if Prepends(r) then r.path + r.prependKey.value else []
  }

  /** What one `next(key, value)` call does: it returns (with the reader,
      key and value afterwards and the boolean result), or it raises an I/O
      error, leaving the caller's key and value as they were. */
  datatype NextResult =
    | Returned(reader: Reader, key: seq<byte>, value: seq<byte>, more: bool)
    | Threw(reader: Reader)

  /** `next(key, value)`, as one function of the reader's state. */
  function NextRecord(r: Reader, key: seq<byte>, value: seq<byte>): (o: NextResult)
    ensures r.hasRead ==> o == Returned(r, key, value, false)
    ensures !r.hasRead && FailsBeforeEnd(r.source) ==> o.Threw? && !o.reader.hasRead
    ensures !r.hasRead && !FailsBeforeEnd(r.source) ==>
      o.Returned? && o.more && o.reader.hasRead && o.key == r.path
    ensures !r.hasRead && !FailsBeforeEnd(r.source) && !Prepends(r) ==>
      o.Returned? && o.value == r.source.pending
    ensures !r.hasRead && !FailsBeforeEnd(r.source) && Prepends(r) ==>
      o.Returned? && o.value == r.path + r.prependKey.value + r.source.pending
    ensures o.reader.path == r.path && o.reader.prependKey == r.prependKey
    ensures o.reader.source.closed == r.source.closed
  {
    if r.hasRead then
      Returned(r, key, value, false)
    else
      match Extend(Prefix(r), Drain(r.source))
      case DrainFailed(rest) => Threw(r.(source := rest))
      case Drained(data, rest) => Returned(r.(source := rest, hasRead := true), r.path, data, true)
  }

  /** The chunked read loop of `next`: starting from a buffer holding
      `buf0`, append each chunk `read` fills until end of stream. */
  method ReadChunks(buf0: seq<byte>, s0: Source) returns (d: Drained)
    ensures d == Extend(buf0, Drain(s0))
  {
    var buf := buf0;
    var s := s0;
    while true
      invariant Extend(buf0, Drain(s0)) == Extend(buf, Drain(s))
      decreases |s.pending|
    {
      var res := Read(s);
      DrainStep(s);
      match res {
        case ReadFailed(next) =>
          return DrainFailed(next);
        case EndOfStream =>
          assert buf + [] == buf;
          return Drained(buf, s);
        case Bytes(data, next) =>
          ExtendTwice(buf, data, Drain(next));
          buf := buf + data;
          s := next;
      }
    }
  }

  /** `next(key, value)`: the buffer starts with the prefix and grows by the
      chunks read; key, value and `hasRead` are set only after the loop ends. */
  method Next(r: Reader, key: seq<byte>, value: seq<byte>) returns (o: NextResult)
    ensures o == NextRecord(r, key, value)
  {
    if r.hasRead {
      return Returned(r, key, value, false);
    }
    var buf: seq<byte> := [];
    if r.prependKey.Some? && r.prependKey.value != [] {
      buf := buf + r.path;
      buf := buf + r.prependKey.value;
    }
    assert buf == Prefix(r);
    var d := ReadChunks(buf, r.source);
    match d {
      case DrainFailed(rest) =>
        o := Threw(r.(source := rest));
      case Drained(data, rest) =>
        o := Returned(r.(source := rest, hasRead := true), r.path, data, true);
    }
  }

  /** `getProgress`: 0 before the record was produced, 1 afterwards. */
  function Progress(r: Reader): (p: real)
    ensures 0.0 <= p <= 1.0
    ensures p == 0.0 <==> !r.hasRead
    ensures p == 1.0 <==> r.hasRead
  {
    if r.hasRead then 1.0 else 0.0
  }

  /** `close`: closes the decoded stream; later reads raise I/O errors. */
  function Close(r: Reader): (c: Reader)
    ensures c.source.closed && c.hasRead == r.hasRead
    ensures c.path == r.path && c.prependKey == r.prependKey
    ensures c.source.pending == r.source.pending
  {
    r.(source := r.source.(closed := true))
  }

  // ---------------------------------------------------------------------------
  // Properties across calls
  // ---------------------------------------------------------------------------

  /** Number of records `n` consecutive `next` calls produce, starting from
      `r` with the caller's key and value objects; a call that raises an
      error produces none, and the caller may go on calling. */
  function RecordsOver(r: Reader, key: seq<byte>, value: seq<byte>, n: nat): nat
    decreases n
  {
    if n == 0 then 0
    else
      match NextRecord(r, key, value)
      case Threw(r') => RecordsOver(r', key, value, n - 1)
      case Returned(r', k', v', more) => (if more then 1 else 0) + RecordsOver(r', k', v', n - 1)
  }

  /** Once the record was produced, every later call returns false and
      leaves key, value and reader as they were. */
  lemma {:induction false} NothingAfterRecord(r: Reader, key: seq<byte>, value: seq<byte>, n: nat)
    requires r.hasRead
    ensures RecordsOver(r, key, value, n) == 0
    decreases n
  {
    if n > 0 {
      assert NextRecord(r, key, value) == Returned(r, key, value, false);
      NothingAfterRecord(r, key, value, n - 1);
    }
  }

  /** At most one record per file, however many times `next` is called,
      retries after errors included; and exactly one from a freshly opened
      reader whose stream reads to its end. */
  lemma {:induction false} AtMostOneRecord(r: Reader, key: seq<byte>, value: seq<byte>, n: nat)
    ensures RecordsOver(r, key, value, n) <= 1
    ensures !r.hasRead && !FailsBeforeEnd(r.source) && n >= 1 ==> RecordsOver(r, key, value, n) == 1
    decreases n
  {
    if n > 0 {
      match NextRecord(r, key, value)
      case Threw(r') =>
        AtMostOneRecord(r', key, value, n - 1);
      case Returned(r', k', v', more) =>
        if r.hasRead {
          NothingAfterRecord(r, key, value, n);
        } else {
          assert r'.hasRead;
          NothingAfterRecord(r', k', v', n - 1);
        }
    }
  }

  /** Progress is 0 until a `next` call produces the record and 1 from then
      on; a call that raises an error leaves it at 0. */
  lemma ProgressAcrossNext(r: Reader, key: seq<byte>, value: seq<byte>)
    ensures Progress(r) == 0.0 && !FailsBeforeEnd(r.source) ==> Progress(NextRecord(r, key, value).reader) == 1.0
    ensures Progress(r) == 0.0 && FailsBeforeEnd(r.source) ==> Progress(NextRecord(r, key, value).reader) == 0.0
    ensures Progress(r) == 1.0 ==> Progress(NextRecord(r, key, value).reader) == 1.0
  {
  }

  /** The record does not depend on how many bytes each `read` returns:
      the same stream under any other schedule of short reads gives the same
      outcome, the same key and value, and after an error the same unread
      bytes. */
  lemma ValueIndependentOfChunking(r: Reader, key: seq<byte>, value: seq<byte>, sizes: seq<nat>)
    ensures var o1 := NextRecord(r, key, value);
      var o2 := NextRecord(r.(source := r.source.(sizes := sizes)), key, value);
      && o1.Threw? == o2.Threw?
      && (o1.Returned? ==> o1.key == o2.key && o1.value == o2.value && o1.more == o2.more)
      && (o1.Threw? ==> o1.reader.source.pending == o2.reader.source.pending)
  {
    if !r.hasRead {
      var s1, s2 := r.source, r.source.(sizes := sizes);
      var d1, d2 := Drain(s1), Drain(s2);
      DrainLeavesSuffix(s1);
      DrainLeavesSuffix(s2);
      assert FailsBeforeEnd(s1) == FailsBeforeEnd(s2);
      if FailsBeforeEnd(s1) && !s1.closed {
        assert d1.rest.offset == d2.rest.offset;
        assert |d1.rest.pending| == |d2.rest.pending|;
      }
    }
  }

  /** A retry after a transient read error: the failed call read up to the
      failure offset and left `hasRead` false, so the next call starts a
      fresh buffer, writes the prefix again and reads on from the failure
      offset. Its record holds only the bytes after the failure offset, and
      is shorter than the whole record whenever any byte came before it. */
  lemma RetryAfterTransientError(r: Reader, key: seq<byte>, value: seq<byte>)
    requires !r.hasRead && !r.source.closed && r.source.failOnce && r.source.failAt.Some?
    requires r.source.offset <= r.source.failAt.value <= r.source.offset + |r.source.pending|
    ensures var o1 := NextRecord(r, key, value);
      && o1.Threw? && !o1.reader.hasRead
      && (var o2 := NextRecord(o1.reader, key, value);
          && o2.Returned? && o2.more && o2.key == r.path
          && o2.value == Prefix(r) + r.source.pending[r.source.failAt.value - r.source.offset..]
          && (r.source.offset < r.source.failAt.value ==> |o2.value| < |Prefix(r) + r.source.pending|))
  {
    var s := r.source;
    var k := s.failAt.value - s.offset;
    var d := Drain(s);
    DrainLeavesSuffix(s);
    assert d.DrainFailed? && d.rest.failAt.None? && d.rest.offset == s.failAt.value;
    assert d.rest.pending == s.pending[k..];
    var r1 := r.(source := d.rest);
    assert NextRecord(r, key, value) == Threw(r1);
    assert !FailsBeforeEnd(r1.source) && Prefix(r1) == Prefix(r);
    var o2 := NextRecord(r1, key, value);
    assert o2.value == Prefix(r) + s.pending[k..];
  }

  /** From configuration to record: a file opened by a configured format
      yields a value of path, delimiter and content when the option is set
      and non-empty, and the bare content otherwise; an empty file still
      yields one record. */
  lemma ConfiguredRecord(conf: map<string, seq<byte>>, path: seq<byte>, source: Source, key: seq<byte>, value: seq<byte>)
    requires !FailsBeforeEnd(source)
    ensures var o := NextRecord(Open(Configure(conf), path, source), key, value);
      && o.Returned? && o.more && o.key == path
      && (PrependKeyOption in conf && conf[PrependKeyOption] != [] ==>
            o.value == path + conf[PrependKeyOption] + source.pending
            && |o.value| == |path| + |conf[PrependKeyOption]| + |source.pending|)
      && (PrependKeyOption !in conf || conf[PrependKeyOption] == [] ==> o.value == source.pending)
  {
  }

  /** A format that was never configured keeps its null delimiter, so a
      file opened by it yields the bare content. */
  lemma UnconfiguredGivesContent(path: seq<byte>, source: Source, key: seq<byte>, value: seq<byte>)
    requires !FailsBeforeEnd(source)
    ensures var o := NextRecord(Open(Unconfigured, path, source), key, value);
      o.Returned? && o.more && o.key == path && o.value == source.pending
  {
  }

  /** After `close` no new record can be produced: the call either returns
      false (record already produced) or raises an I/O error. */
  lemma NoRecordAfterClose(r: Reader, key: seq<byte>, value: seq<byte>)
    ensures var o := NextRecord(Close(r), key, value);
      (r.hasRead ==> o.Returned? && !o.more) && (!r.hasRead ==> o.Threw?)
  {
  }
}

=== FILE: util.dfy ===
/**
  The pure helpers of the job-orchestration utilities: the check that every
  input file has a matching output file, the inclusive date-range test, and
  the filtering behind the S3 object-listing helpers.

  The S3 client and its remote calls are not modelled: a bucket listing is
  given as `Some(summaries)`, and `None` stands for every case in which the
  Java helpers get no listing (a null client, a bucket that does not exist,
  or a null listing), all of which they treat alike.
 */
module Util {

  import opened Wrappers

  /** A Java string operation that either returns a value or raises
      StringIndexOutOfBoundsException. */
  datatype Outcome<+T> = Returns(value: T) | Throws

  // ---------------------------------------------------------------------------
  // Java string operations
  // ---------------------------------------------------------------------------

  /** `s.indexOf(c, from)`: position of the first `c` at or after `from`, or -1. */
  function IndexOfFrom(s: string, c: char, from: nat): (k: int)
    requires from <= |s|
    ensures k == -1 ==> forall j :: from <= j < |s| ==> s[j] != c
    ensures k != -1 ==> from <= k < |s| && s[k] == c && forall j :: from <= j < k ==> s[j] != c
    decreases |s| - from
  {
    if from == |s| then -1
    else if s[from] == c then from
    else IndexOfFrom(s, c, from + 1)
  }

  /** `s.indexOf(c)`. */
  function IndexOf(s: string, c: char): int
  {
    IndexOfFrom(s, c, 0)
  }

  /** `s.lastIndexOf(c, end - 1)`: position of the last `c` before `end`, or -1. */
  function LastIndexOfBefore(s: string, c: char, end: nat): (k: int)
    requires end <= |s|
    ensures k == -1 ==> forall j :: 0 <= j < end ==> s[j] != c
    ensures k != -1 ==> 0 <= k < end && s[k] == c && forall j :: k < j < end ==> s[j] != c
  {
    if end == 0 then -1
    else if s[end - 1] == c then end - 1
    else LastIndexOfBefore(s, c, end - 1)
  }

  /** `s.lastIndexOf(c)`. */
  function LastIndexOf(s: string, c: char): int
  {
    LastIndexOfBefore(s, c, |s|)
  }

  /** `s.substring(begin, end)`: throws unless 0 <= begin <= end <= |s|. */
  function Substring(s: string, begin: int, end: int): (r: Outcome<string>)
    ensures r.Returns? <==> 0 <= begin <= end <= |s|
    ensures r.Returns? ==> r.value == s[begin..end]
  {
    if 0 <= begin <= end <= |s| then Returns(s[begin..end]) else Throws
  }

  /** `s.indexOf(t, from)` for a string `t`: first position at or after
      `from` where `t` occurs in `s`, or -1. */
  function IndexOfStringFrom(s: string, t: string, from: nat): (k: int)
    requires from <= |s|
    ensures k == -1 || from <= k <= |s| - |t|
    decreases |s| - from
  {
    if |s| - from < |t| then -1
    else if s[from..from + |t|] == t then from
    else if from == |s| then -1
    else IndexOfStringFrom(s, t, from + 1)
  }

  /** `s.indexOf(t)`. */
  function IndexOfString(s: string, t: string): int
  {
    IndexOfStringFrom(s, t, 0)
  }

  /** `t` is a prefix of `s`. */
  predicate IsPrefix(t: string, s: string)
  {
    |t| <= |s| && s[..|t|] == t
  }

  /** `s.indexOf(t) == 0` holds exactly when `t` is a prefix of `s`. */
  lemma IndexOfZeroIffPrefix(s: string, t: string)
    ensures IndexOfString(s, t) == 0 <==> IsPrefix(t, s)
  {
    if IsPrefix(t, s) {
      assert s[0..|t|] == t;
    }
  }

  // ---------------------------------------------------------------------------
  // Input/output correspondence
  // ---------------------------------------------------------------------------

  /** One pair of the correspondence loop, evaluated in Java's order:
      the input's first component must be `iPath`, the output's first
      component `oPath`, and the two directory parts between the first and
      the last '/' must be equal. A missing '/' makes `indexOf` give -1 and
      the `substring` that uses it throw. */
  function PairCorresponds(iPath: string, oPath: string, iFile: string, oFile: string): (r: Outcome<bool>)
    ensures !HasSlash(iFile) ==> r == Throws
    ensures HasSlash(iFile) && Head(iFile) != iPath ==> r == Returns(false)
    ensures HasSlash(iFile) && Head(iFile) == iPath && !HasSlash(oFile) ==> r == Throws
    ensures HasSlash(iFile) && Head(iFile) == iPath && HasSlash(oFile) && Head(oFile) != oPath ==> r == Returns(false)
    ensures r == Returns(true) ==>
      HasSlash(iFile) && HasSlash(oFile) && Head(iFile) == iPath && Head(oFile) == oPath
  {
    FirstSlashEndsHead(iFile);
    FirstSlashEndsHead(oFile);
    match Substring(iFile, 0, IndexOf(iFile, '/'))
    case Throws => Throws
    case Returns(iTop) =>
      if iTop != iPath then Returns(false)
      else
        match Substring(oFile, 0, IndexOf(oFile, '/'))
        case Throws => Throws
        case Returns(oTop) =>
          if oTop != oPath then Returns(false)
          else
            match Substring(iFile, IndexOf(iFile, '/'), LastIndexOf(iFile, '/'))
            case Throws => Throws
            case Returns(iMid) =>
              match Substring(oFile, IndexOf(oFile, '/'), LastIndexOf(oFile, '/'))
              case Throws => Throws
              case Returns(oMid) => Returns(iMid == oMid)
  }

  /** The loop over the pairs from index `i` on: the first pair that does
      not pass decides, answering false or throwing as that pair does. */
  function PairsFrom(iPath: string, oPath: string, iFiles: seq<string>, oFiles: seq<string>, i: nat): (r: Outcome<bool>)
    requires |iFiles| == |oFiles| && i <= |iFiles|
    ensures r == Returns(true) <==>
      forall j :: i <= j < |iFiles| ==> PairCorresponds(iPath, oPath, iFiles[j], oFiles[j]) == Returns(true)
    ensures r == Returns(false) ==>
      exists j :: i <= j < |iFiles| && PairCorresponds(iPath, oPath, iFiles[j], oFiles[j]) == Returns(false)
    ensures r == Throws ==>
      exists j :: i <= j < |iFiles| && PairCorresponds(iPath, oPath, iFiles[j], oFiles[j]) == Throws
    ensures r != Returns(true) ==>
      exists j :: i <= j < |iFiles| && r == PairCorresponds(iPath, oPath, iFiles[j], oFiles[j])
        && forall k :: i <= k < j ==> PairCorresponds(iPath, oPath, iFiles[k], oFiles[k]) == Returns(true)
    decreases |iFiles| - i
  {
    if i == |iFiles| then Returns(true)
    else
      match PairCorresponds(iPath, oPath, iFiles[i], oFiles[i])
      case Throws => Throws
      case Returns(ok) => if ok then PairsFrom(iPath, oPath, iFiles, oFiles, i + 1) else Returns(false)
  }

  /** `validateInputOutput1_1Correspondence`. */
  function ValidateCorrespondence(iPath: string, oPath: string, iFiles: seq<string>, oFiles: seq<string>): (r: Outcome<bool>)
    ensures |iFiles| != |oFiles| ==> r == Returns(false)
  {
    if |iFiles| != |oFiles| then Returns(false)
    else PairsFrom(iPath, oPath, iFiles, oFiles, 0)
  }

  // Reference definitions of the parts of a path, independent of the Java
  // string operations.

  /** `s` contains a '/'. */
  predicate HasSlash(s: string)
  {
    exists i :: 0 <= i < |s| && s[i] == '/'
  }

  /** The text before the first '/' (all of `s` when there is none). */
  function Head(s: string): string
  {
    if |s| == 0 || s[0] == '/' then [] else [s[0]] + Head(s[1..])
  }

  /** The text after the last '/' (all of `s` when there is none). */
  function Name(s: string): string
  {
    if |s| == 0 || s[|s| - 1] == '/' then [] else Name(s[..|s| - 1]) + [s[|s| - 1]]
  }

  /** The head is a prefix of the path, followed by a '/' when there is one. */
  lemma {:induction false} HeadIsPrefix(s: string)
    ensures |Head(s)| <= |s| && Head(s) == s[..|Head(s)|]
    ensures HasSlash(s) ==> |Head(s)| < |s| && s[|Head(s)|] == '/'
    decreases |s|
  {
    if |s| > 0 && s[0] != '/' {
      HeadIsPrefix(s[1..]);
      if HasSlash(s) {
        var j :| 0 <= j < |s| && s[j] == '/';
        assert s[1..][j - 1] == '/';
      }
    }
  }

  /** The name is a suffix of the path, preceded by a '/' when there is one. */
  lemma {:induction false} NameIsSuffix(s: string)
    ensures |Name(s)| <= |s| && Name(s) == s[|s| - |Name(s)|..]
    ensures HasSlash(s) ==> |Name(s)| < |s| && s[|s| - |Name(s)| - 1] == '/'
    decreases |s|
  {
    if |s| > 0 && s[|s| - 1] != '/' {
      var p := s[..|s| - 1];
      NameIsSuffix(p);
      assert s[|s| - |Name(s)|..] == p[|p| - |Name(p)|..] + [s[|s| - 1]];
      if HasSlash(s) {
        var j :| 0 <= j < |s| && s[j] == '/';
        assert p[j] == '/';
      }
    }
  }

  /** `indexOf` finds the first '/': its position is the head's length. */
  lemma {:induction false} HeadIsIndexOf(s: string, from: nat)
    requires from <= |s| && HasSlash(s[from..])
    ensures from + |Head(s[from..])| == IndexOfFrom(s, '/', from)
    decreases |s| - from
  {
    var j :| 0 <= j < |s[from..]| && s[from..][j] == '/';
    if s[from] != '/' {
      assert s[from..][1..] == s[from + 1..];
      assert s[from + 1..][j - 1] == '/';
      HeadIsIndexOf(s, from + 1);
    }
  }

  /** On a path with a '/', `indexOf('/')` is the length of the head, and
      the head is the text before that position. */
  lemma FirstSlashEndsHead(s: string)
    ensures HasSlash(s) ==> IndexOf(s, '/') == |Head(s)| && |Head(s)| <= |s| && Head(s) == s[..|Head(s)|]
  {
    if HasSlash(s) {
      assert s[0..] == s;
      HeadIsIndexOf(s, 0);
      HeadIsPrefix(s);
    }
  }

  /** `lastIndexOf` finds the last '/': its position is where the name starts, less one. */
  lemma {:induction false} NameIsLastIndexOf(s: string, end: nat)
    requires end <= |s| && HasSlash(s[..end])
    ensures end - |Name(s[..end])| - 1 == LastIndexOfBefore(s, '/', end)
    decreases end
  {
    var j :| 0 <= j < |s[..end]| && s[..end][j] == '/';
    if s[end - 1] != '/' {
      assert s[..end][..end - 1] == s[..end - 1];
      assert s[..end - 1][j] == '/';
      NameIsLastIndexOf(s, end - 1);
    }
  }

  /** On a path with a '/', Java's `indexOf` and `lastIndexOf` give
      the end of the head and the start of the name, less one. */
  lemma SlashPositions(s: string)
    requires HasSlash(s)
    ensures IndexOf(s, '/') == |Head(s)|
    ensures LastIndexOf(s, '/') == |s| - |Name(s)| - 1
  {
    assert s[0..] == s;
    assert s[..|s|] == s;
    HeadIsIndexOf(s, 0);
    NameIsLastIndexOf(s, |s|);
  }

  /** In a path with a '/', the head ends no later than the name begins. */
  lemma HeadBeforeName(s: string)
    requires HasSlash(s)
    ensures |Head(s)| + |Name(s)| < |s|
  {
    HeadIsPrefix(s);
    NameIsSuffix(s);
    var j :| 0 <= j < |s| && s[j] == '/';
    if |Head(s)| > j {
      assert Head(s)[j] == '/';
      HeadHasNoSlash(s, j);
    }
    if |s| - |Name(s)| <= j {
      assert Name(s)[j - (|s| - |Name(s)|)] == '/';
      NameHasNoSlash(s, j - (|s| - |Name(s)|));
    }
  }

  lemma {:induction false} HeadHasNoSlash(s: string, k: nat)
    requires k < |Head(s)|
    ensures Head(s)[k] != '/'
    decreases |s|
  {
    if k > 0 {
      HeadHasNoSlash(s[1..], k - 1);
    }
  }

  lemma {:induction false} NameHasNoSlash(s: string, k: nat)
    requires k < |Name(s)|
    ensures Name(s)[k] != '/'
    decreases |s|
  {
    if k < |Name(s)| - 1 {
      NameHasNoSlash(s[..|s| - 1], k);
    }
  }

  /** The directories between the first and the last '/', starting with the
      first '/' (empty when the path has a single '/'). */
  function Middle(s: string): string
    requires HasSlash(s)
  {
    HeadBeforeName(s);
    s[|Head(s)|..|s| - |Name(s)| - 1]
  }

  /** A sequence is its part before `a`, its part from `a` to `b`, its
      element at `b` and its part after `b`. */
  lemma SplitAround<T>(s: seq<T>, a: nat, b: nat)
    requires a <= b < |s|
    ensures s == s[..a] + s[a..b] + [s[b]] + s[b + 1..]
  {
    assert s[..b] == s[..a] + s[a..b];
    assert s[..b + 1] == s[..b] + [s[b]];
    assert s == s[..b + 1] + s[b + 1..];
  }

  /** A path with a '/' is its head, its middle, a '/' and its name. */
  lemma MiddleDecomposes(s: string)
    requires HasSlash(s)
    ensures s == Head(s) + Middle(s) + ['/'] + Name(s)
  {
    HeadIsPrefix(s);
    NameIsSuffix(s);
    HeadBeforeName(s);
    SplitAround(s, |Head(s)|, |s| - |Name(s)| - 1);
  }

  /** A pair of entries that both have a '/' matches: expected top-level
      folders and equal directory parts. */
  predicate PairMatches(iPath: string, oPath: string, iFile: string, oFile: string)
    requires HasSlash(iFile) && HasSlash(oFile)
  {
    Head(iFile) == iPath && Head(oFile) == oPath && Middle(iFile) == Middle(oFile)
  }

  /** Every entry has a '/'. */
  predicate AllSlashed(files: seq<string>)
  {
    forall i :: 0 <= i < |files| ==> HasSlash(files[i])
  }

  /** Every pair matches. */
  predicate Corresponds(iPath: string, oPath: string, iFiles: seq<string>, oFiles: seq<string>)
    requires AllSlashed(iFiles) && AllSlashed(oFiles)
  {
    && |iFiles| == |oFiles|
    && forall i :: 0 <= i < |iFiles| ==> PairMatches(iPath, oPath, iFiles[i], oFiles[i])
  }

  /** On an entry with a '/', the two `substring` calls of
      `validateInputOutput1_1Correspondence` give the
      reference head and middle. */
  lemma SubstringsOfSlashed(s: string)
    requires HasSlash(s)
    ensures Substring(s, 0, IndexOf(s, '/')) == Returns(Head(s))
    ensures Substring(s, IndexOf(s, '/'), LastIndexOf(s, '/')) == Returns(Middle(s))
  {
    SlashPositions(s);
    HeadIsPrefix(s);
    HeadBeforeName(s);
  }

  /** One pair whose entries both have a '/' never throws, and passes
      exactly when it matches the reference definition. */
  lemma PairMatchesReference(iPath: string, oPath: string, iFile: string, oFile: string)
    requires HasSlash(iFile) && HasSlash(oFile)
    ensures PairCorresponds(iPath, oPath, iFile, oFile) == Returns(PairMatches(iPath, oPath, iFile, oFile))
  {
    SubstringsOfSlashed(iFile);
    SubstringsOfSlashed(oFile);
  }

  lemma {:induction false} PairsFromMatchesReference(iPath: string, oPath: string, iFiles: seq<string>, oFiles: seq<string>, i: nat)
    requires |iFiles| == |oFiles| && i <= |iFiles|
    requires AllSlashed(iFiles) && AllSlashed(oFiles)
    ensures PairsFrom(iPath, oPath, iFiles, oFiles, i).Returns?
    ensures PairsFrom(iPath, oPath, iFiles, oFiles, i).value
      <==> forall j :: i <= j < |iFiles| ==> PairMatches(iPath, oPath, iFiles[j], oFiles[j])
    decreases |iFiles| - i
  {
    if i < |iFiles| {
      PairMatchesReference(iPath, oPath, iFiles[i], oFiles[i]);
      PairsFromMatchesReference(iPath, oPath, iFiles, oFiles, i + 1);
    }
  }

  /** When every entry has a '/', the validator never throws and answers
      exactly whether the lists correspond pair by pair. */
  lemma ValidateMatchesReference(iPath: string, oPath: string, iFiles: seq<string>, oFiles: seq<string>)
    requires AllSlashed(iFiles) && AllSlashed(oFiles)
    ensures ValidateCorrespondence(iPath, oPath, iFiles, oFiles) == Returns(Corresponds(iPath, oPath, iFiles, oFiles))
  {
    if |iFiles| == |oFiles| {
      PairsFromMatchesReference(iPath, oPath, iFiles, oFiles, 0);
    }
  }

  lemma {:induction false} PairsFromThrowsOnlyOnSlashless(iPath: string, oPath: string, iFiles: seq<string>, oFiles: seq<string>, i: nat)
    requires |iFiles| == |oFiles| && i <= |iFiles|
    requires PairsFrom(iPath, oPath, iFiles, oFiles, i) == Throws
    ensures exists j :: i <= j < |iFiles| && (!HasSlash(iFiles[j]) || !HasSlash(oFiles[j]))
    decreases |iFiles| - i
  {
    if HasSlash(iFiles[i]) && HasSlash(oFiles[i]) {
      PairMatchesReference(iPath, oPath, iFiles[i], oFiles[i]);
      PairsFromThrowsOnlyOnSlashless(iPath, oPath, iFiles, oFiles, i + 1);
    }
  }

  /** The validator throws only when lists of equal length hold an entry
      without a '/'. */
  lemma ValidateThrowsOnlyOnSlashless(iPath: string, oPath: string, iFiles: seq<string>, oFiles: seq<string>)
    requires ValidateCorrespondence(iPath, oPath, iFiles, oFiles) == Throws
    ensures |iFiles| == |oFiles|
    ensures exists j :: 0 <= j < |iFiles| && (!HasSlash(iFiles[j]) || !HasSlash(oFiles[j]))
  {
    PairsFromThrowsOnlyOnSlashless(iPath, oPath, iFiles, oFiles, 0);
  }

  /** An input entry without a '/' makes the validator throw at once, without
      looking at the output entry. */
  lemma SlashlessInputThrows(iPath: string, oPath: string, iFile: string, oFile: string)
    requires !HasSlash(iFile)
    ensures ValidateCorrespondence(iPath, oPath, [iFile], [oFile]) == Throws
  {
  }

  lemma {:induction false} NameOfSuffix(dir: string, n: string)
    requires !HasSlash(n)
    ensures Name(dir + ['/'] + n) == n
    decreases |n|
  {
    var s := dir + ['/'] + n;
    if n != [] {
      assert s[..|s| - 1] == dir + ['/'] + n[..|n| - 1];
      NameOfSuffix(dir, n[..|n| - 1]);
      assert n == n[..|n| - 1] + [n[|n| - 1]];
    }
  }

  lemma {:induction false} HeadOfSlashed(h: string, rest: string)
    requires !HasSlash(h) && |rest| > 0 && rest[0] == '/'
    ensures Head(h + rest) == h
    decreases |h|
  {
    if h != [] {
      assert (h + rest)[1..] == h[1..] + rest;
      assert forall j :: 0 <= j < |h[1..]| ==> h[1..][j] == h[j + 1];
      HeadOfSlashed(h[1..], rest);
    }
  }

  /** The middle is whatever lies between the head and the '/' before the
      name. */
  lemma MiddleBetween(s: string, h: string, mid: string, n: string)
    requires s == h + mid + ['/'] + n
    requires HasSlash(s) && Head(s) == h && Name(s) == n
    ensures Middle(s) == mid
  {
    MiddleDecomposes(s);
    var m := Middle(s);
    assert |m| == |mid|;
    forall k | 0 <= k < |m|
      ensures m[k] == mid[k]
    {
      assert m[k] == s[|h| + k];
      assert mid[k] == s[|h| + k];
    }
  }

  /** A path built from a top-level folder, a directory part and a file name
      splits back into exactly those parts. */
  lemma PathParts(h: string, mid: string, n: string)
    requires !HasSlash(h) && !HasSlash(n)
    requires mid == [] || mid[0] == '/'
    ensures HasSlash(h + mid + ['/'] + n)
    ensures Head(h + mid + ['/'] + n) == h
    ensures Middle(h + mid + ['/'] + n) == mid
    ensures Name(h + mid + ['/'] + n) == n
  {
    var s := h + mid + ['/'] + n;
    assert s[|h + mid|] == '/';
    assert s == (h + mid) + ['/'] + n;
    NameOfSuffix(h + mid, n);
    assert s == h + (mid + ['/'] + n);
    HeadOfSlashed(h, mid + ['/'] + n);
    MiddleBetween(s, h, mid, n);
  }

  /** The final path component is ignored: renaming a file inside its
      directory changes neither its top-level folder nor its directory part. */
  lemma NameIgnored(h: string, mid: string, n1: string, n2: string)
    requires !HasSlash(h) && !HasSlash(n1) && !HasSlash(n2)
    requires mid == [] || mid[0] == '/'
    ensures HasSlash(h + mid + ['/'] + n1) && HasSlash(h + mid + ['/'] + n2)
    ensures Head(h + mid + ['/'] + n1) == Head(h + mid + ['/'] + n2)
    ensures Middle(h + mid + ['/'] + n1) == Middle(h + mid + ['/'] + n2)
  {
    PathParts(h, mid, n1);
    PathParts(h, mid, n2);
  }

  /** Two entries with the expected top-level folders, the same directory
      part and any file names correspond. */
  lemma SameDirectoriesCorrespond(iPath: string, oPath: string, mid: string, n1: string, n2: string)
    requires !HasSlash(iPath) && !HasSlash(oPath) && !HasSlash(n1) && !HasSlash(n2)
    requires mid == [] || mid[0] == '/'
    ensures ValidateCorrespondence(iPath, oPath, [iPath + mid + ['/'] + n1], [oPath + mid + ['/'] + n2]) == Returns(true)
  {
    var iFile, oFile := iPath + mid + ['/'] + n1, oPath + mid + ['/'] + n2;
    PathParts(iPath, mid, n1);
    PathParts(oPath, mid, n2);
    assert PairMatches(iPath, oPath, iFile, oFile);
    assert Corresponds(iPath, oPath, [iFile], [oFile]);
    ValidateMatchesReference(iPath, oPath, [iFile], [oFile]);
  }

  /** The first pair of the table in the documentation of
      `validateInputOutput1_1Correspondence`,
      `input/2011/11/02/in/in2/in3/tfidf1` and
      `output/2011/11/02/in/in2/in3/tfidf1`, written as its parts: the same
      nested directories under `input` and `output` correspond. */
  lemma DocumentedExample()
    ensures ValidateCorrespondence("input", "output",
      ["input" + "/2011/11/02/in/in2/in3" + "/" + "tfidf1"],
      ["output" + "/2011/11/02/in/in2/in3" + "/" + "tfidf1"]) == Returns(true)
  {
    SameDirectoriesCorrespond("input", "output", "/2011/11/02/in/in2/in3", "tfidf1", "tfidf1");
  }

  // ---------------------------------------------------------------------------
  // Date range
  // ---------------------------------------------------------------------------

  /** `isDateWithinDates` over timestamps: the date equals one of the ends or
      lies strictly after the start and strictly before the end. */
  function IsDateWithinDates(date: int, start: int, end: int): (r: bool)
    ensures start <= end ==> (r <==> start <= date <= end)
    ensures end < start ==> (r <==> date == start || date == end)
  {
    date == start || date == end || (start < date && date < end)
  }

  /** The four cases the unit test of `isDateWithinDates` checks, with
      months written as ordinal numbers: inside the range, after it, and at
      each end. */
  lemma DateTestCases()
    ensures IsDateWithinDates(2011 * 12 + 8, 2011 * 12 + 7, 2011 * 12 + 9)
    ensures !IsDateWithinDates(2011 * 12 + 11, 2011 * 12 + 7, 2011 * 12 + 9)
    ensures IsDateWithinDates(2011 * 12 + 7, 2011 * 12 + 7, 2011 * 12 + 9)
    ensures IsDateWithinDates(2011 * 12 + 9, 2011 * 12 + 7, 2011 * 12 + 9)
  {
  }

  /** Swapping the ends of a range keeps only the two ends themselves: a
      reversed range contains nothing strictly between them. */
  lemma ReversedRangeOnlyEnds(date: int, start: int, end: int)
    requires start < date < end
    ensures IsDateWithinDates(date, start, end)
    ensures !IsDateWithinDates(date, end, start)
  {
  }

  // ---------------------------------------------------------------------------
  // S3 listing filters
  // ---------------------------------------------------------------------------

  /** One entry of a bucket listing. */
  datatype ObjectSummary = ObjectSummary(key: string, size: int)

  /** An entry the key listing keeps: every entry, or only non-empty ones
      when blanks are excluded. */
  predicate Kept(o: ObjectSummary, excludeBlanks: bool)
  {
    !excludeBlanks || o.size > 0
  }

  /** Reference definition of the key listing: the keys of the kept
      entries, in listing order. */
  function KeptKeys(summaries: seq<ObjectSummary>, excludeBlanks: bool): (keys: seq<string>)
    ensures |keys| <= |summaries|
  {
    if summaries == [] then []
    else
      var rest := KeptKeys(summaries[1..], excludeBlanks);
      if Kept(summaries[0], excludeBlanks) then [summaries[0].key] + rest else rest
  }

  /** A key is in the key listing exactly when some kept entry has it. */
  lemma {:induction false} KeptKeysMembers(summaries: seq<ObjectSummary>, excludeBlanks: bool)
    ensures forall k :: k in KeptKeys(summaries, excludeBlanks) <==>
      exists i :: 0 <= i < |summaries| && summaries[i].key == k && Kept(summaries[i], excludeBlanks)
    decreases |summaries|
  {
    if summaries != [] {
      KeptKeysMembers(summaries[1..], excludeBlanks);
      assert forall i :: 1 <= i < |summaries| ==> summaries[i] == summaries[1..][i - 1];
    }
  }

  /** The key listing distributes over concatenation of listings, so it
      keeps the listing's order. */
  lemma {:induction false} KeptKeysAppend(a: seq<ObjectSummary>, b: seq<ObjectSummary>, excludeBlanks: bool)
    ensures KeptKeys(a + b, excludeBlanks) == KeptKeys(a, excludeBlanks) + KeptKeys(b, excludeBlanks)
    decreases |a|
  {
    if a == [] {
      assert a + b == b;
    } else {
      KeptKeysAppend(a[1..], b, excludeBlanks);
      assert (a + b)[1..] == a[1..] + b;
    }
  }

  /** Without exclusion every key is kept, position by position. */
  lemma {:induction false} AllKeysKept(summaries: seq<ObjectSummary>)
    ensures |KeptKeys(summaries, false)| == |summaries|
    ensures forall i :: 0 <= i < |summaries| ==> KeptKeys(summaries, false)[i] == summaries[i].key
    decreases |summaries|
  {
    if summaries != [] {
      AllKeysKept(summaries[1..]);
    }
  }

  /** `getAllObjectKeysInBucket(s3, bucket, excludeBlanks)`: the loop over
      the listing's entries; no listing gives null. */
  method ObjectKeysInBucket(listing: Option<seq<ObjectSummary>>, excludeBlanks: bool) returns (keys: Option<seq<string>>)
    ensures listing.None? <==> keys.None?
    ensures listing.Some? ==> keys.value == KeptKeys(listing.value, excludeBlanks)
  {
    if listing.None? {
      return None;
    }
    var summaries := listing.value;
    var objectKeys: seq<string> := [];
    var i := 0;
    while i < |summaries|
      invariant 0 <= i <= |summaries|
      invariant objectKeys == KeptKeys(summaries[..i], excludeBlanks)
    {
      KeptKeysAppend(summaries[..i], [summaries[i]], excludeBlanks);
      assert summaries[..i + 1] == summaries[..i] + [summaries[i]];
      if !excludeBlanks || summaries[i].size > 0 {
        objectKeys := objectKeys + [summaries[i].key];
      }
      i := i + 1;
    }
    assert summaries[..i] == summaries;
    return Some(objectKeys);
  }

  /** Reference definition of the folder filter: the keys that start with
      `folder`, in order. */
  function InFolder(keys: seq<string>, folder: string): (r: seq<string>)
    ensures |r| <= |keys|
    ensures forall k :: k in r <==> k in keys && IsPrefix(folder, k)
  {
    if keys == [] then []
    else
      var rest := InFolder(keys[1..], folder);
      IndexOfZeroIffPrefix(keys[0], folder);
      assert forall k :: k in keys <==> k == keys[0] || k in keys[1..];
      if IndexOfString(keys[0], folder) == 0 then [keys[0]] + rest else rest
  }

  /** The folder filter distributes over concatenation, so it keeps order. */
  lemma {:induction false} InFolderAppend(a: seq<string>, b: seq<string>, folder: string)
    ensures InFolder(a + b, folder) == InFolder(a, folder) + InFolder(b, folder)
    decreases |a|
  {
    if a != [] {
      assert (a + b)[1..] == a[1..] + b;
      InFolderAppend(a[1..], b, folder);
    } else {
      assert a + b == b;
    }
  }

  lemma {:induction false} EmptyPrefixKeepsAll(keys: seq<string>)
    ensures InFolder(keys, "") == keys
    decreases |keys|
  {
    if keys != [] {
      assert IsPrefix("", keys[0]);
      EmptyPrefixKeepsAll(keys[1..]);
    }
  }

  /** An empty folder name is a prefix of every key (`indexOf("")` is 0),
      so the folder filter then returns the whole key listing. */
  lemma EmptyFolderKeepsAll(summaries: seq<ObjectSummary>)
    ensures ObjectsInFolder(Some(summaries), "") == Some(KeptKeys(summaries, false))
  {
    EmptyPrefixKeepsAll(KeptKeys(summaries, false));
  }

  /** `getAllObjectsInfolder`: the keys of the whole listing that start with
      `folder`, in listing order; no listing gives null. */
  function ObjectsInFolder(listing: Option<seq<ObjectSummary>>, folder: string): (r: Option<seq<string>>)
    ensures listing.None? <==> r.None?
    ensures r.Some? ==> forall k :: k in r.value <==>
      IsPrefix(folder, k) && exists i :: 0 <= i < |listing.value| && listing.value[i].key == k
  {
    match listing
    case None => None
    case Some(summaries) =>
      KeptKeysMembers(summaries, false);
      Some(InFolder(KeptKeys(summaries, false), folder))
  }

  /** The folder test is a textual prefix test, not a path test: a key in a
      sibling folder whose name merely starts with the folder name is kept. */
  lemma FolderIsTextualPrefix()
    ensures ObjectsInFolder(Some([ObjectSummary("input/a", 1)]), "in") == Some(["input/a"])
  {
    var keys := KeptKeys([ObjectSummary("input/a", 1)], false);
    assert keys == ["input/a"];
    IndexOfZeroIffPrefix("input/a", "in");
    assert IsPrefix("in", "input/a");
  }

  /** Whether `key` is the key of some entry of the listing. */
  predicate Listed(summaries: seq<ObjectSummary>, key: string)
  {
    exists i :: 0 <= i < |summaries| && summaries[i].key == key
  }

  /** `checkIfAllObjectsExist`: true exactly when there is a listing and
      every requested key is in it; stops at the first missing key. */
  method AllObjectsExist(listing: Option<seq<ObjectSummary>>, objectKeys: seq<string>) returns (r: bool)
    ensures r <==> listing.Some? && forall j :: 0 <= j < |objectKeys| ==> Listed(listing.value, objectKeys[j])
  {
    var objectsInBucket := ObjectKeysInBucket(listing, false);
    if objectsInBucket.None? {
      return false;
    }
    var inBucket := objectsInBucket.value;
    KeptKeysMembers(listing.value, false);
    var i := 0;
    while i < |objectKeys|
      invariant 0 <= i <= |objectKeys|
      invariant forall j :: 0 <= j < i ==> Listed(listing.value, objectKeys[j])
    {
      if objectKeys[i] !in inBucket {
        return false;
      }
      i := i + 1;
    }
    return true;
  }
}

=== FILE: wrappers.dfy ===
/** The optional value shared by both modules: `None` stands for a Java
    `null` (an unset option, a missing listing). */
module Wrappers {

  datatype Option<+T> = None | Some(value: T)
}
